=== FILE: README.md ===
# Travelling-Salesman: tour bookkeeping, record store and solver contracts in Dafny

This project models the logic of the Travelling-Salesman visualiser:

- the tour length the window computes (`TSPGUI.compute_distance`): consecutive
  edges plus the edge that closes the loop;
- the window's state machine: fresh cities, "keep the best tour so far", the
  segment-by-segment animation of a new best tour, and the guards that keep a
  run from starting without cities or during an animation;
- the in-memory record store of `StatsLogger`: algorithm name to three
  append-only lists;
- the two solver entry points, `run_genetic_algorithm` and `run_ant_colony`.
  Both are stand-ins that shuffle `range(n)`. Their contract is that the result
  is an ordering of the city indices that depends only on the number of cities.

Euclidean distance is an abstract real-valued function. No floating point is
modelled. Randomness is a parameter: a stream of arbitrary raw draws, which
`randbelow` and `randint` reduce into their ranges. `random.shuffle` is
CPython's Fisher–Yates loop driven by those draws. The model proves that every
ordering, and every city layout inside the margins, can be produced by some
draws. So quantifying over draws covers every outcome the library can give.

Files, one module each: `options.dfy` (`Options`), `permutations.dfy`
(`Permutations`), `random_draws.dfy` (`RandomDraws`), `shuffle.dfy`
(`Shuffle`), `tour.dfy` (`Tour`), `ga.dfy` (`GeneticSolver`), `aco.dfy`
(`AntColonySolver`), `gui.dfy` (`TspGui`), `stats_logger.dfy` (`StatsLogger`).

Both solvers shuffle `range(n)` for any `n`, including 0 and 1; neither
rejects small inputs.

## Model

| member | source | states |
|---|---|---|
| Tour.ComputeDistance | algorithm/gui.py:176-191 | fewer than two entries give 0; otherwise the result is the sum of `d(path[i], path[i+1])` over `i < len-1` plus the closing `d(path[-1], path[0])`, and it equals the cycle-edge reference `TourLength` |
| Tour.TourLengthNonNegative | algorithm/gui.py:180-191 | with non-negative distances the tour length is non-negative |
| Tour.TourLengthRotationInvariant | algorithm/gui.py:180-191 | because the closing edge is counted, starting the same cycle at any position gives the same length |
| Tour.TourLengthReversalInvariant | algorithm/gui.py:180-191 | with a symmetric distance (as `math.dist` is), traversing the cycle backwards gives the same length |
| Tour.TourLengthIsCycleSum | algorithm/gui.py:178-191 | when a city is at distance 0 from itself, the length is the sum over all cycle edges, including for one-city paths |
| RandomDraws.Between | algorithm/gui.py:151-152 | `randint(lo, hi)` lies in `[lo, hi]` |
| RandomDraws.BetweenReachesEvery | algorithm/gui.py:151-152 | every value of `[lo, hi]` is a possible `randint` outcome |
| Shuffle.FisherYates | algorithm/ga.py:13 | the shuffled list has the same length and the same elements as the input |
| Shuffle.FisherYatesReachesEvery | algorithm/ga.py:13 | every rearrangement of the input is a possible shuffle outcome |
| GeneticSolver.RunGeneticAlgorithm | algorithm/ga.py:5-14 | the result is a permutation of `0..n-1` for `n` cities: length `n`, no duplicates, no omissions; no cities give `[]` |
| GeneticSolver.GeneticDependsOnlyOnCount | algorithm/ga.py:11-14 | two city lists of equal length give the same result for the same draws |
| GeneticSolver.GeneticReachesEveryTour | algorithm/ga.py:11-14 | every permutation of the city indices is a possible result |
| AntColonySolver.RunAntColony | algorithm/aco.py:6-17 | the result is a permutation of `0..n-1` for `n` cities; no cities give `[]` |
| AntColonySolver.AntColonyIgnoresInitialPath | algorithm/aco.py:6-17 | the optional seed tour has no effect on the result |
| AntColonySolver.AntColonyDependsOnlyOnCount | algorithm/aco.py:14-17 | two city lists of equal length give the same result for the same draws and seed |
| AntColonySolver.AntColonyReachesEveryTour | algorithm/aco.py:14-17 | every permutation of the city indices is a possible result, whatever the seed |
| TspGui.GenerateCities | algorithm/gui.py:139-156 | exactly `num_cities` cities, each with x in [50, 1150] and y in [50, 750]; best distance back to infinity, best and current paths emptied, animation stopped; the window invariant holds for every metric |
| TspGui.GenerateCitiesReachesEvery | algorithm/gui.py:150-153 | every layout of `num_cities` cities inside the margins is a possible outcome |
| TspGui.NewGui | algorithm/gui.py:16-102 | a new window has algorithm "GA", automatic mode off, no best tour, no animation, and `num_cities` generated cities, each inside the margins |
| TspGui.AnimatePath | algorithm/gui.py:266-297 | a stopped animation is left alone; before the end of the path a firing advances the segment index and draws the edge into the previous position (nothing at index 0); at the end it draws the closing edge and stops; nothing else changes |
| TspGui.AnimationStops | algorithm/gui.py:279-295 | from any segment index, the remaining firings bring the index to the path length and stop the animation, changing nothing else |
| TspGui.AnimationDrawsRest | algorithm/gui.py:279-295 | from any segment index, the remaining firings draw the rest of the cycle's edges, in order, closing edge last |
| TspGui.AnimationDrawsTour | algorithm/gui.py:266-297 | from index 0, `n + 1` firings draw `(path[k-1], path[k])` for `k = 1..n-1` and then `(path[n-1], path[0])`, stop the animation, and any later firing does nothing |
| TspGui.AnimationIdle | algorithm/gui.py:271-273 | once stopped, firings draw nothing and change nothing |
| TspGui.AnimatePathKeepsValid | algorithm/gui.py:266-297 | a firing keeps the window invariant |
| TspGui.CheckAndUpdateBest | algorithm/gui.py:228-261 | a strictly shorter tour becomes the best tour with its length and starts its animation (first firing done, so the index is 1); any other tour changes nothing; the best distance never increases; the invariant is kept for permutation input |
| TspGui.BestIsMinimum | algorithm/gui.py:236-239 | after a series of tours the best distance is no longer than the old best or than any of the tours; if it changed, it is one of the tours, recorded with its path; if it did not change, neither did the best path |
| TspGui.Solve | algorithm/gui.py:216-224 | "GA" gives the genetic result; every other name gives the ant-colony result without a seed tour, so the hybrid's genetic seed has no effect |
| TspGui.SolveIsPermutation | algorithm/gui.py:216-224 | whichever name is selected, the tour is a permutation of the city indices |
| TspGui.RunOnce | algorithm/gui.py:207-226 | without cities or during an animation nothing changes; otherwise the best distance never increases, a change of best starts an animation over a permutation of the cities, a tour that is not better leaves the window unchanged, cities, mode and algorithm are kept, and the invariant is kept |
| TspGui.RunAutoIteration | algorithm/gui.py:350-366 | as `run_once`: the same guard, cities, mode and algorithm kept, the best distance never increases, a change of best starts an animation over a permutation of the cities, a tour that is not better changes nothing, and the invariant is kept |
| TspGui.AutoLoop | algorithm/gui.py:342-348 | with automatic mode off nothing changes; the mode flag, cities and algorithm are kept; the best distance never increases and, when it stays, nothing changes; the invariant is kept |
| TspGui.StartAuto | algorithm/gui.py:336-340 | automatic mode ends up on; if it already was, nothing changes; otherwise the first iteration runs at once (exactly `run_once` on the window with the mode on, when there are cities and no animation), and without a new best only the flag changes; cities and algorithm are kept; the invariant is kept |
| TspGui.StopAuto | algorithm/gui.py:368-370 | automatic mode ends up off and nothing else changes; the window invariant is kept for every metric |
| StatsLogger.DefaultStore | algorithm/stats_logger.py:21-25 | exactly the keys GA, ACO and Hybride, each with empty `distances`, `times` and `extra` |
| StatsLogger.LoadStats | algorithm/stats_logger.py:14-25 | a loaded store is used as is; otherwise the store has exactly the three default keys with empty records |
| StatsLogger.Reset | algorithm/stats_logger.py:44-50 | whatever was logged, the store has exactly the three default keys with empty records |
| StatsLogger.ResetForgetsLogs | algorithm/stats_logger.py:44-50 | after `reset`, whatever store and whatever `log` calls came before, `get` reads an empty record for GA, ACO and Hybride and nothing for any other name |
| StatsLogger.DefaultLoadReadsEmpty | algorithm/stats_logger.py:14-25 | without a stats file, `get` reads an empty record for GA, ACO and Hybride and nothing for any other name |
| StatsLogger.Log | algorithm/stats_logger.py:57-66 | the keys become the old keys plus the name, and an unknown name starts from an empty record; every other record is unchanged; distance and timestamp are appended iff given; the keyword arguments are appended as one entry iff non-empty |
| StatsLogger.LogAppendsOnly | algorithm/stats_logger.py:57-65 | each list of the target record keeps its entries and grows by at most one, and by one exactly when the matching argument is given |
| StatsLogger.GetAfterLog | algorithm/stats_logger.py:57-74 | after a `log` the name has a record, and every other name reads back as before |
| StatsLogger.LogCommutes | algorithm/stats_logger.py:57-65 | `log` calls under different names commute |
| StatsLogger.LogAllKeys | algorithm/stats_logger.py:58-59 | replaying calls adds exactly the logged names as keys |
| StatsLogger.LogAllDistances | algorithm/stats_logger.py:60-61 | after replaying calls, a name's distances are its old distances followed by the distances given to its calls, in call order |
| StatsLogger.LogAllLeavesOthers | algorithm/stats_logger.py:57-65 | a name no call mentions keeps its record and its presence |
| StatsLogger.Get | algorithm/stats_logger.py:73-74 | the stored record for a known name; `None` (the empty dict) otherwise |
| StatsLogger.GetAll | algorithm/stats_logger.py:81-82 | the whole store, every key with its record |

## Left out

- Drawing: the background gradient, city ovals and labels, neon and orange lines, palettes and the info label text. Only the state those methods update is modelled. The animation reports the edge each firing draws.
- Timing: `root.after` scheduling. One call of `AnimatePath` stands for one firing of the 200 ms callback. The `is_auto` flag only decides whether `auto_loop` is rescheduled, so it is not modelled. Interleavings of late callbacks with user actions are not modelled either. One example is a run started within 200 ms of `generate_cities` cutting an animation short.
- `math.dist` and floating point: the metric is an abstract real-valued function on cities. Non-negativity, symmetry and zero self-distance are hypotheses of the lemmas that need them.
- TourLengthRotationInvariant and TourLengthReversalInvariant hold of exact real sums only. Python's running `dist +=` rounds in the order of the additions, so a rotation or reversal of the best tour can come out slightly shorter and pass `dist < self.best_distance` as a new best; in the model it never does.
- Indexing `self.cities` with an out-of-range entry, which raises `IndexError`: the GUI's distance is defined on all index pairs. Tours in the window are always permutations of the city indices, which the invariant `Valid` records.
- `animate_path` on an empty path raises `IndexError`. `AnimatePath` requires a non-empty path while animating. `Valid` shows this holds in every reachable state, because `run_once` refuses to run without cities.
- CheckAndUpdateBest: requires a non-empty tour. An empty tour has length 0, which would become the best and then make `animate_path` raise `IndexError` on `path[-1]`. Its only callers pass a solver result for a non-empty city list, which is never empty.
- Value: keyword-argument values of `log` are integers, reals, text or booleans. Python also accepts lists, dicts and `None` there; the store only keeps these entries and never inspects them, so no behaviour depends on the narrowing.
- A negative `num_cities`, which Python would turn into no cities: the count is a natural number.
- The random generator itself: draws are arbitrary natural numbers. `randbelow` is `draw % bound`, and every value of the range is reachable. The genetic and ant-colony calls of one run get separate draw streams.
- `StatsLogger` persistence: JSON loading and saving, the file path, exceptions and `print`. `LoadStats` takes the outcome of loading as a parameter, and every change is assumed to be written back. A loaded file whose records lack one of the three lists cannot be represented.
- `get` returns the live dictionary, so a caller's later mutation shows in the store. Aliasing is not modelled.
- `algorithm/main.py` (dialog-driven entry point) and `algorithm/HybridTSP.py` are not part of this model. The latter imports classes that the solver files do not define.

=== FILE: aco.dfy ===
/**
 * `run_ant_colony` (algorithm/aco.py): a stand-in for the ant-colony search
 * that returns `list(range(n))` shuffled. The optional `initial_path`, meant
 * to seed the pheromone trails, is accepted and not used.
 */
module AntColonySolver {
  import opened Options
  import opened RandomDraws
  import opened Permutations
  import opened Shuffle
  import opened Tour

  /** The visiting order proposed for `cities`, given the shuffle's draws. */
  function RunAntColony(cities: seq<City>, initialPath: Option<seq<nat>>, draws: Draws): (r: seq<nat>)
    ensures IsPermutation(r, |cities|)
    ensures |cities| == 0 ==> r == []
  {
    var r := FisherYates(Range(|cities|), draws);
    SameElementsAsRange(r, |cities|);
    r
  }

  /** The seed tour has no effect on the result. */
  lemma AntColonyIgnoresInitialPath(cities: seq<City>, p1: Option<seq<nat>>, p2: Option<seq<nat>>, draws: Draws)
    ensures RunAntColony(cities, p1, draws) == RunAntColony(cities, p2, draws)
  {
  }

  /** The coordinates play no part: equally many cities give the same order. */
  lemma AntColonyDependsOnlyOnCount(c1: seq<City>, c2: seq<City>, initialPath: Option<seq<nat>>, draws: Draws)
    requires |c1| == |c2|
    ensures RunAntColony(c1, initialPath, draws) == RunAntColony(c2, initialPath, draws)
  {
  }

  /** Every ordering of the city indices is a possible result, whatever the seed tour. */
  lemma AntColonyReachesEveryTour(cities: seq<City>, initialPath: Option<seq<nat>>, t: seq<nat>)
    requires IsPermutation(t, |cities|)
    ensures exists draws: Draws :: RunAntColony(cities, initialPath, draws) == t
  {
    PermutationHasRangeElements(t, |cities|);
    FisherYatesReachesEvery(Range(|cities|), t);
    var draws: Draws :| FisherYates(Range(|cities|), draws) == t;
    assert RunAntColony(cities, initialPath, draws) == t;
  }
}

=== FILE: ga.dfy ===
/**
 * `run_genetic_algorithm` (algorithm/ga.py): a stand-in for the genetic
 * search that returns `list(range(n))` shuffled, `n` being the number of
 * cities. Its only promise is that the result is an ordering of the city
 * indices.
 */
module GeneticSolver {
  import opened RandomDraws
  import opened Permutations
  import opened Shuffle
  import opened Tour

  /** The visiting order proposed for `cities`, given the shuffle's draws. */
  function RunGeneticAlgorithm(cities: seq<City>, draws: Draws): (r: seq<nat>)
    ensures IsPermutation(r, |cities|)
    ensures |cities| == 0 ==> r == []
  {
    var r := FisherYates(Range(|cities|), draws);
    SameElementsAsRange(r, |cities|);
    r
  }

  /** The coordinates play no part: equally many cities give the same order. */
  lemma GeneticDependsOnlyOnCount(c1: seq<City>, c2: seq<City>, draws: Draws)
    requires |c1| == |c2|
    ensures RunGeneticAlgorithm(c1, draws) == RunGeneticAlgorithm(c2, draws)
  {
  }

  /** Every ordering of the city indices is a possible result. */
  lemma GeneticReachesEveryTour(cities: seq<City>, t: seq<nat>)
    requires IsPermutation(t, |cities|)
    ensures exists draws: Draws :: RunGeneticAlgorithm(cities, draws) == t
  {
    PermutationHasRangeElements(t, |cities|);
    FisherYatesReachesEvery(Range(|cities|), t);
    var draws: Draws :| FisherYates(Range(|cities|), draws) == t;
    assert RunGeneticAlgorithm(cities, draws) == t;
  }
}

=== FILE: gui.dfy ===
/**
 * The bookkeeping of `TSPGUI` (algorithm/gui.py): the generated cities, the
 * best tour found so far, the segment-by-segment animation of a new best
 * tour, and the guards that keep a run from starting during an animation.
 *
 * Only the state variables are modelled; drawing on the canvas, the info
 * label and `root.after` scheduling are not. One call of `AnimatePath` is one
 * firing of the `animate_path` callback, and it reports the edge it draws.
 */
module TspGui {
  import opened Options
  import opened RandomDraws
  import opened Permutations
  import opened Tour
  import opened GeneticSolver
  import opened AntColonySolver

  const WindowWidth: int := 1200
  const WindowHeight: int := 800
  /** Cities keep this distance from the canvas border. */
  const Margin: int := 50

  /** `best_distance`: `float("inf")` until a first tour is recorded. */
  datatype Best = Infinite | Finite(value: real)

  /** The state variables of a `TSPGUI` window. */
  datatype Gui = Gui(
    numCities: nat,
    cities: seq<City>,
    bestDistance: Best,
    bestPath: seq<nat>,
    currentPath: seq<nat>,
    segmentIndex: nat,
    isAnimating: bool,
    autoRunning: bool,
    algo: string)

  /** The draws of one run: those of the genetic call and those of the ant-colony call. */
  datatype RunDraws = RunDraws(ga: Draws, aco: Draws)

  /** One firing of the animation callback: the state after it and the edge it drew, if any. */
  datatype AnimationStep = AnimationStep(gui: Gui, drawn: Option<Edge>)

  /** Several firings of the animation callback: the final state and the edges drawn, in order. */
  datatype AnimationRun = AnimationRun(gui: Gui, drawn: seq<Edge>)

  /** `dist < best_distance`, where every real number is below infinity. */
  predicate Improves(dist: real, best: Best) {
    best.Infinite? || dist < best.value
  }

  /** `b'` is no larger than `b`. */
  predicate NoWorse(b': Best, b: Best) {
    b.Infinite? || (b'.Finite? && b'.value <= b.value)
  }

  predicate InWindow(c: City) {
    Margin <= c.x <= WindowWidth - Margin && Margin <= c.y <= WindowHeight - Margin
  }

  /**
   * What the window's methods keep true: one city per requested city, a
   * recorded best tour that visits every city once and whose recorded length
   * is its tour length, and an animation that only ever runs over the best
   * tour, which is not empty.
   */
  ghost predicate Valid(g: Gui, m: Metric) {
    && |g.cities| == g.numCities
    && (g.bestDistance.Infinite? ==> g.bestPath == [])
    && (g.bestDistance.Finite? ==>
          && IsPermutation(g.bestPath, |g.cities|)
          && g.bestDistance.value == TourLength(CityDist(g.cities, m), g.bestPath))
    && (g.isAnimating ==>
          && g.currentPath == g.bestPath
          && 1 <= |g.currentPath|
          && g.segmentIndex <= |g.currentPath|)
  }

  /** City number `k` of `generate_cities`: `randint` for x, then `randint` for y. */
  function DrawCity(draws: Draws, k: nat): (c: City)
    ensures InWindow(c)
  {
    City(Between(draws(2 * k), Margin, WindowWidth - Margin),
         Between(draws(2 * k + 1), Margin, WindowHeight - Margin))
  }

  /** The `n` cities `generate_cities` draws. */
  function DrawCities(n: nat, draws: Draws): (cs: seq<City>)
    ensures |cs| == n
    ensures forall k :: 0 <= k < n ==> InWindow(cs[k])
  {
    seq(n, k requires 0 <= k < n => DrawCity(draws, k))
  }

  /** `generate_cities`: fresh cities and a reset of the best tour and of the animation. */
  function GenerateCities(g: Gui, draws: Draws): (g': Gui)
    ensures |g'.cities| == g.numCities
    ensures forall k :: 0 <= k < |g'.cities| ==> InWindow(g'.cities[k])
    ensures g'.bestDistance == Infinite && g'.bestPath == []
    ensures g'.currentPath == [] && !g'.isAnimating
    ensures g'.numCities == g.numCities && g'.segmentIndex == g.segmentIndex
    ensures g'.autoRunning == g.autoRunning && g'.algo == g.algo
    ensures forall m: Metric :: Valid(g', m)
  {
    g.(cities := DrawCities(g.numCities, draws),
       bestDistance := Infinite, bestPath := [], currentPath := [], isAnimating := false)
  }

  /** The window as `__init__` leaves it: algorithm "GA", automatic mode off, cities generated. */
  function NewGui(numCities: nat, draws: Draws): (g: Gui)
    ensures |g.cities| == numCities && g.numCities == numCities
    ensures g.bestDistance == Infinite && g.bestPath == [] && g.currentPath == []
    ensures !g.isAnimating && !g.autoRunning && g.segmentIndex == 0 && g.algo == "GA"
    ensures forall k :: 0 <= k < |g.cities| ==> InWindow(g.cities[k])
    ensures forall m: Metric :: Valid(g, m)
  {
    GenerateCities(Gui(numCities, [], Infinite, [], [], 0, false, false, "GA"), draws)
  }

  /** Every layout of `numCities` cities inside the margins can come out of `generate_cities`. */
  lemma GenerateCitiesReachesEvery(g: Gui, cs: seq<City>)
    requires |cs| == g.numCities
    requires forall k :: 0 <= k < |cs| ==> InWindow(cs[k])
    ensures exists draws: Draws :: GenerateCities(g, draws).cities == cs
  {
    var draws: Draws := (i: nat) =>
      var k := i / 2;
      if k < |cs| && cs[k].x >= Margin && cs[k].y >= Margin
      then (if i % 2 == 0 then cs[k].x - Margin else cs[k].y - Margin)
      else 0;
    var got := GenerateCities(g, draws).cities;
    forall k | 0 <= k < |cs|
      ensures got[k] == cs[k]
    {
      assert (2 * k) / 2 == k && (2 * k) % 2 == 0;
      assert (2 * k + 1) / 2 == k && (2 * k + 1) % 2 == 1;
      assert draws(2 * k) == cs[k].x - Margin;
      assert draws(2 * k + 1) == cs[k].y - Margin;
      assert got[k] == DrawCity(draws, k);
    }
  }

  /**
   * One firing of `animate_path`. Position `seg` of the segment index draws
   * the edge into `path[seg]` (nothing for `seg == 0`); once the index reaches
   * the end, the closing edge is drawn and the animation stops.
   */
  function AnimatePath(g: Gui): (st: AnimationStep)
    requires g.isAnimating ==> |g.currentPath| >= 1
    ensures !g.isAnimating ==> st == AnimationStep(g, None)
    ensures g.isAnimating && g.segmentIndex >= |g.currentPath| ==>
      st.drawn == Some(CycleEdge(g.currentPath, |g.currentPath| - 1)) && !st.gui.isAnimating && st.gui.segmentIndex == g.segmentIndex
    ensures g.isAnimating && g.segmentIndex < |g.currentPath| ==>
      && st.gui.isAnimating
      && st.gui.segmentIndex == g.segmentIndex + 1
      && st.drawn == (if g.segmentIndex == 0 then None else Some(CycleEdge(g.currentPath, g.segmentIndex - 1)))
    ensures st.gui.(segmentIndex := g.segmentIndex, isAnimating := g.isAnimating) == g
  {
    if !g.isAnimating then AnimationStep(g, None)
    else
      var path := g.currentPath;
      var seg := g.segmentIndex;
      var n := |path|;
      if seg >= n then
        AnimationStep(g.(isAnimating := false), Some(Edge(path[n - 1], path[0])))
      else
        var drawn := if seg > 0 then Some(Edge(path[seg - 1], path[seg])) else None;
        AnimationStep(g.(segmentIndex := seg + 1), drawn)
  }

  /** `k` successive firings of the animation callback. */
  function Animate(g: Gui, k: nat): AnimationRun
    requires g.isAnimating ==> |g.currentPath| >= 1
    decreases k
  {
    if k == 0 then AnimationRun(g, [])
    else
      var st := AnimatePath(g);
      var rest := Animate(st.gui, k - 1);
      AnimationRun(rest.gui, DrawnList(st) + rest.drawn)
  }

  /** The edges a firing reports, as a list. */
  function DrawnList(st: AnimationStep): seq<Edge> {
    if st.drawn.Some? then [st.drawn.value] else []
  }

  /** One more firing prepends its edge to those of the firings after it. */
  lemma AnimateUnfold(g: Gui, k: nat)
    requires g.isAnimating ==> |g.currentPath| >= 1
    ensures Animate(g, k + 1) ==
      AnimationRun(Animate(AnimatePath(g).gui, k).gui, DrawnList(AnimatePath(g)) + Animate(AnimatePath(g).gui, k).drawn)
  {
  }

  /** The firing at the end of the path draws the closing edge and stops the animation. */
  lemma ClosingFiring(g: Gui)
    requires g.isAnimating && 1 <= |g.currentPath| == g.segmentIndex
    ensures Animate(g, 1) ==
      AnimationRun(g.(isAnimating := false), [CycleEdge(g.currentPath, |g.currentPath| - 1)])
  {
    AnimateUnfold(g, 0);
  }

  /** A firing before the end of the path advances the index and draws the edge into the previous position. */
  lemma MiddleFiring(g: Gui)
    requires g.isAnimating && g.segmentIndex < |g.currentPath|
    ensures AnimatePath(g).gui == g.(segmentIndex := g.segmentIndex + 1)
    ensures DrawnList(AnimatePath(g)) ==
      (if g.segmentIndex == 0 then [] else [CycleEdge(g.currentPath, g.segmentIndex - 1)])
  {
  }

  /** Index of the first edge still to draw from segment index `seg`. */
  function FirstPending(seg: nat): nat {
    if seg == 0 then 0 else seg - 1
  }

  /** From segment index `seg`, the remaining firings bring the index to the end and stop the animation. */
  lemma {:induction false} AnimationStops(g: Gui, k: nat)
    requires g.isAnimating && 1 <= |g.currentPath| && g.segmentIndex <= |g.currentPath|
    requires k == |g.currentPath| + 1 - g.segmentIndex
    ensures Animate(g, k).gui == g.(segmentIndex := |g.currentPath|, isAnimating := false)
    decreases k
  {
    if g.segmentIndex == |g.currentPath| {
      ClosingFiring(g);
    } else {
      AnimateUnfold(g, k - 1);
      MiddleFiring(g);
      AnimationStops(g.(segmentIndex := g.segmentIndex + 1), k - 1);
    }
  }

  /**
   * From segment index `seg`, the remaining firings draw the rest of the cycle
   * in order, closing edge last.
   */
  lemma {:induction false} AnimationDrawsRest(g: Gui, k: nat)
    requires g.isAnimating && 1 <= |g.currentPath| && g.segmentIndex <= |g.currentPath|
    requires k == |g.currentPath| + 1 - g.segmentIndex
    ensures Animate(g, k).drawn == CycleEdges(g.currentPath)[FirstPending(g.segmentIndex)..]
    decreases k
  {
    var n := |g.currentPath|;
    var es := CycleEdges(g.currentPath);
    var seg := g.segmentIndex;
    if seg == n {
      ClosingFiring(g);
      assert es[n - 1..] == [es[n - 1]];
    } else {
      AnimateUnfold(g, k - 1);
      MiddleFiring(g);
      var next := g.(segmentIndex := seg + 1);
      AnimationDrawsRest(next, k - 1);
      var first := DrawnList(AnimatePath(g));
      var rest := Animate(next, k - 1).drawn;
      assert Animate(g, k).drawn == first + rest;
      if seg > 0 {
        assert es[seg - 1..] == [es[seg - 1]] + es[seg..];
      }
    }
  }

  /**
   * Started at segment index 0, `n + 1` firings draw the edges
   * `(path[k-1], path[k])` for `k = 1 .. n-1`, then the closing edge, and stop;
   * any further firing changes nothing.
   */
  lemma AnimationDrawsTour(g: Gui, extra: nat)
    requires g.isAnimating && 1 <= |g.currentPath| && g.segmentIndex == 0
    ensures var run := Animate(g, |g.currentPath| + 1);
            && run.drawn == CycleEdges(g.currentPath)
            && !run.gui.isAnimating
            && Animate(run.gui, extra) == AnimationRun(run.gui, [])
  {
    var k := |g.currentPath| + 1;
    AnimationStops(g, k);
    AnimationDrawsRest(g, k);
    assert CycleEdges(g.currentPath)[0..] == CycleEdges(g.currentPath);
    AnimationIdle(Animate(g, k).gui, extra);
  }

  /** A stopped animation stays stopped and draws nothing. */
  lemma {:induction false} AnimationIdle(g: Gui, k: nat)
    requires !g.isAnimating
    ensures Animate(g, k) == AnimationRun(g, [])
  {
    if k > 0 {
      AnimationIdle(g, k - 1);
    }
  }

  /**
   * `check_and_update_best`: a strictly shorter tour becomes the best tour and
   * starts its animation, whose first firing happens at once; any other tour
   * leaves the state alone.
   */
  function CheckAndUpdateBest(g: Gui, m: Metric, path: seq<nat>): (g': Gui)
    requires |path| >= 1
    ensures var dist := TourLength(CityDist(g.cities, m), path);
            if Improves(dist, g.bestDistance) then
              && g'.bestDistance == Finite(dist) && g'.bestPath == path
              && g'.currentPath == path && g'.isAnimating && g'.segmentIndex == 1
            else g' == g
    ensures NoWorse(g'.bestDistance, g.bestDistance)
    ensures g'.cities == g.cities && g'.numCities == g.numCities
    ensures g'.autoRunning == g.autoRunning && g'.algo == g.algo
    ensures Valid(g, m) && IsPermutation(path, |g.cities|) ==> Valid(g', m)
  {
    var dist := TourLength(CityDist(g.cities, m), path);
    if Improves(dist, g.bestDistance) then
      var started := g.(bestDistance := Finite(dist), bestPath := path,
                        currentPath := path, segmentIndex := 0, isAnimating := true);
      AnimatePath(started).gui
    else g
  }

  /** Repeated `check_and_update_best` on a series of tours. */
  function CheckAll(g: Gui, m: Metric, paths: seq<seq<nat>>): (g': Gui)
    requires forall i :: 0 <= i < |paths| ==> |paths[i]| >= 1
    ensures g'.cities == g.cities
    decreases |paths|
  {
    if |paths| == 0 then g
    else CheckAll(CheckAndUpdateBest(g, m, paths[0]), m, paths[1..])
  }

  /**
   * Keeping the best so far: after a series of tours, the recorded best is no
   * longer than any of them nor than the previous best, and when it changed it
   * is one of the tours, recorded together with its length.
   */
  lemma {:induction false} BestIsMinimum(g: Gui, m: Metric, paths: seq<seq<nat>>)
    requires forall i :: 0 <= i < |paths| ==> |paths[i]| >= 1
    ensures var g' := CheckAll(g, m, paths);
            var d := CityDist(g.cities, m);
            && NoWorse(g'.bestDistance, g.bestDistance)
            && (g'.bestDistance == g.bestDistance ==> g'.bestPath == g.bestPath)
            && (forall i :: 0 <= i < |paths| ==>
                  g'.bestDistance.Finite? && g'.bestDistance.value <= TourLength(d, paths[i]))
            && (g'.bestDistance != g.bestDistance ==>
                  exists i :: 0 <= i < |paths| &&
                    g'.bestPath == paths[i] && g'.bestDistance == Finite(TourLength(d, paths[i])))
    decreases |paths|
  {
    if |paths| > 0 {
      var d := CityDist(g.cities, m);
      var h := CheckAndUpdateBest(g, m, paths[0]);
      var tail := paths[1..];
      BestIsMinimum(h, m, tail);
      var g' := CheckAll(h, m, tail);
      forall i | 0 <= i < |paths|
        ensures g'.bestDistance.Finite? && g'.bestDistance.value <= TourLength(d, paths[i])
      {
        if i > 0 {
          assert paths[i] == tail[i - 1];
        }
      }
      if g'.bestDistance != g.bestDistance {
        if g'.bestDistance != h.bestDistance {
          var i :| 0 <= i < |tail| && g'.bestPath == tail[i] && g'.bestDistance == Finite(TourLength(d, tail[i]));
          assert paths[i + 1] == tail[i];
        } else {
          assert g'.bestPath == h.bestPath;
        }
      }
    }
  }

  /** Every firing of the animation callback keeps the window's invariant. */
  lemma AnimatePathKeepsValid(g: Gui, m: Metric)
    requires Valid(g, m)
    ensures Valid(AnimatePath(g).gui, m)
  {
  }

  /**
   * The tour a run asks for, by the selected algorithm name: "GA" runs the
   * genetic search, "ACO" the ant colony, and any other name runs the hybrid,
   * the ant colony seeded with the genetic search's tour.
   */
  function Solve(cities: seq<City>, algo: string, draws: RunDraws): (path: seq<nat>)
    ensures path == if algo == "GA" then RunGeneticAlgorithm(cities, draws.ga)
                    else RunAntColony(cities, None, draws.aco)
  {
    if algo == "GA" then RunGeneticAlgorithm(cities, draws.ga)
    else if algo == "ACO" then RunAntColony(cities, None, draws.aco)
    else
      var seed := RunGeneticAlgorithm(cities, draws.ga);
      RunAntColony(cities, Some(seed), draws.aco)
  }

  /** Whichever name is selected, the tour visits every city exactly once. */
  lemma SolveIsPermutation(cities: seq<City>, algo: string, draws: RunDraws)
    ensures IsPermutation(Solve(cities, algo, draws), |cities|)
  {
  }

  /**
   * `run_once`: nothing happens without cities or while an animation runs;
   * otherwise the selected algorithm's tour goes through `check_and_update_best`.
   */
  function RunOnce(g: Gui, m: Metric, draws: RunDraws): (g': Gui)
    ensures |g.cities| == 0 || g.isAnimating ==> g' == g
    ensures NoWorse(g'.bestDistance, g.bestDistance)
    ensures g'.cities == g.cities && g'.autoRunning == g.autoRunning && g'.algo == g.algo
    ensures Valid(g, m) ==> Valid(g', m)
    ensures g'.bestDistance != g.bestDistance ==>
      g'.isAnimating && IsPermutation(g'.bestPath, |g.cities|)
    ensures g'.bestDistance == g.bestDistance ==> g' == g
  {
    if |g.cities| == 0 || g.isAnimating then g
    else CheckAndUpdateBest(g, m, Solve(g.cities, g.algo, draws))
  }

  /**
   * `run_auto_iteration`: the same guard and the same update as `run_once`;
   * it differs only in asking for the next automatic iteration once done,
   * which is scheduling and not state.
   */
  function RunAutoIteration(g: Gui, m: Metric, draws: RunDraws): (g': Gui)
    ensures |g.cities| == 0 || g.isAnimating ==> g' == g
    ensures NoWorse(g'.bestDistance, g.bestDistance)
    ensures g'.cities == g.cities && g'.autoRunning == g.autoRunning && g'.algo == g.algo
    ensures Valid(g, m) ==> Valid(g', m)
    ensures g'.bestDistance != g.bestDistance ==>
      g'.isAnimating && IsPermutation(g'.bestPath, |g.cities|)
    ensures g'.bestDistance == g.bestDistance ==> g' == g
  {
    RunOnce(g, m, draws)
  }

  /** `auto_loop`: an iteration only while automatic mode is on. */
  function AutoLoop(g: Gui, m: Metric, draws: RunDraws): (g': Gui)
    ensures !g.autoRunning ==> g' == g
    ensures g'.autoRunning == g.autoRunning
    ensures g'.cities == g.cities && g'.algo == g.algo
    ensures NoWorse(g'.bestDistance, g.bestDistance)
    ensures g'.bestDistance == g.bestDistance ==> g' == g
    ensures Valid(g, m) ==> Valid(g', m)
  {
    if !g.autoRunning then g else RunAutoIteration(g, m, draws)
  }

  /** `start_auto`: switches automatic mode on and runs a first iteration, unless it is already on. */
  function StartAuto(g: Gui, m: Metric, draws: RunDraws): (g': Gui)
    ensures g.autoRunning ==> g' == g
    ensures g'.autoRunning
    ensures g'.cities == g.cities && g'.algo == g.algo
    ensures NoWorse(g'.bestDistance, g.bestDistance)
    ensures !g.autoRunning && g'.bestDistance == g.bestDistance ==> g' == g.(autoRunning := true)
    ensures !g.autoRunning && |g.cities| > 0 && !g.isAnimating ==>
      g' == RunOnce(g.(autoRunning := true), m, draws)
    ensures Valid(g, m) ==> Valid(g', m)
  {
    if !g.autoRunning then AutoLoop(g.(autoRunning := true), m, draws) else g
  }

  /** `stop_auto`: switches automatic mode off and changes nothing else. */
  function StopAuto(g: Gui): (g': Gui)
    ensures !g'.autoRunning
    ensures g'.(autoRunning := g.autoRunning) == g
    ensures forall m: Metric :: Valid(g, m) ==> Valid(g', m)
  {
    g.(autoRunning := false)
  }
}

=== FILE: options.dfy ===
/** Optional values: Python's `None` versus a present value. */
module Options {

  datatype Option<+T> = None | Some(value: T)
}

=== FILE: permutations.dfy ===
/**
 * Tours as permutations of city indices: `Range(n)` is Python's
 * `list(range(n))`, and a permutation of `0..n-1` holds every index
 * exactly once.
 */
module Permutations {

  /** `list(range(n))`. */
  function Range(n: nat): (r: seq<nat>)
    ensures |r| == n
    ensures forall i :: 0 <= i < n ==> r[i] == i
  {
    seq(n, i requires 0 <= i => i)
  }

  /** No index occurs twice. */
  predicate Distinct(p: seq<nat>) {
    forall i, j :: 0 <= i < j < |p| ==> p[i] != p[j]
  }

  /** Every entry is an index below `n`, and every index below `n` occurs. */
  predicate Covers(p: seq<nat>, n: nat) {
    && (forall i :: 0 <= i < |p| ==> p[i] < n)
    && (forall v :: 0 <= v < n ==> v in p)
  }

  /** `p` is an ordering of `0..n-1`: length `n`, no duplicates, no omissions. */
  predicate IsPermutation(p: seq<nat>, n: nat) {
    |p| == n && Distinct(p) && Covers(p, n)
  }

  /** Each index below `n` occurs exactly once in `Range(n)`, and nothing else occurs. */
  lemma {:induction false} RangeCounts(n: nat)
    ensures forall v: nat :: multiset(Range(n))[v] == (if v < n then 1 else 0)
  {
    if n > 0 {
      RangeCounts(n - 1);
      var last: nat := n - 1;
      assert Range(n) == Range(last) + [last];
      assert multiset(Range(n)) == multiset(Range(last)) + multiset{last};
    } else {
      assert multiset(Range(n)) == multiset{};
    }
  }

  /** Two positions holding the same value make that value occur at least twice. */
  lemma {:induction false} TwoPositionsCountTwice(p: seq<nat>, i: nat, j: nat)
    requires i < j < |p| && p[i] == p[j]
    ensures multiset(p)[p[i]] >= 2
  {
    assert p == p[..j] + p[j..];
    assert p[i] == p[..j][i];
    assert p[j] == p[j..][0];
    assert multiset(p) == multiset(p[..j]) + multiset(p[j..]);
  }

  /** A sequence with the same elements as `Range(n)` is a permutation of `0..n-1`. */
  lemma {:induction false} SameElementsAsRange(p: seq<nat>, n: nat)
    requires multiset(p) == multiset(Range(n))
    ensures IsPermutation(p, n)
  {
    RangeCounts(n);
    assert |p| == |multiset(p)| == |multiset(Range(n))| == n;
    forall i, j | 0 <= i < j < |p|
      ensures p[i] != p[j]
    {
      if p[i] == p[j] {
        TwoPositionsCountTwice(p, i, j);
        assert false;
      }
    }
    forall i | 0 <= i < |p|
      ensures p[i] < n
    {
      assert p[i] in multiset(p);
    }
    forall v | 0 <= v < n
      ensures v in p
    {
      assert v in multiset(Range(n));
    }
  }

  /** In a sequence without duplicates every value occurs at most once. */
  lemma {:induction false} DistinctCountsAtMostOne(p: seq<nat>)
    requires Distinct(p)
    ensures forall v: nat :: multiset(p)[v] <= 1
  {
    if |p| > 0 {
      var init := p[..|p| - 1];
      var last := p[|p| - 1];
      assert p == init + [last];
      assert Distinct(init) by {
        forall i, j | 0 <= i < j < |init|
          ensures init[i] != init[j]
        {
          assert init[i] == p[i] && init[j] == p[j];
        }
      }
      DistinctCountsAtMostOne(init);
      assert last !in init;
      assert multiset(p) == multiset(init) + multiset{last};
    }
  }

  /** A permutation of `0..n-1` has exactly the elements of `Range(n)`. */
  lemma PermutationHasRangeElements(p: seq<nat>, n: nat)
    requires IsPermutation(p, n)
    ensures multiset(p) == multiset(Range(n))
  {
    RangeCounts(n);
    DistinctCountsAtMostOne(p);
    forall v: nat
      ensures multiset(p)[v] == multiset(Range(n))[v]
    {
      if v < n {
        assert v in p;
        assert v in multiset(p);
      }
    }
  }
}

=== FILE: random_draws.dfy ===
/**
 * Python's `random` module as a source of arbitrary draws. No generator is
 * modelled: a `Draws` stream is any function from call position to a raw
 * natural number, and `randbelow`/`randint` reduce a raw draw into their
 * range. Every value of the range is the image of some draw, so quantifying
 * over streams covers every outcome the library can produce.
 */
module RandomDraws {

  /** The raw draw used at each position of a computation. */
  type Draws = nat -> nat

  /** `random._randbelow(bound)`: a value in `[0, bound)`. */
  function Below(draw: nat, bound: nat): (r: nat)
    requires bound > 0
    ensures r < bound
    ensures draw < bound ==> r == draw
  {
    draw % bound
  }

  /** `random.randint(lo, hi)`, which is `lo + randbelow(hi - lo + 1)`: a value in `[lo, hi]`. */
  function Between(draw: nat, lo: int, hi: int): (r: int)
    requires lo <= hi
    ensures lo <= r <= hi
  {
    lo + Below(draw, hi - lo + 1)
  }

  /** Every value of `[lo, hi]` is a possible outcome of `randint(lo, hi)`. */
  lemma BetweenReachesEvery(lo: int, hi: int, v: int)
    requires lo <= v <= hi
    ensures exists draw: nat :: Between(draw, lo, hi) == v
  {
    var draw: nat := v - lo;
    assert Between(draw, lo, hi) == v;
  }
}

=== FILE: shuffle.dfy ===
/**
 * `random.shuffle` as CPython implements it: for `i` from `len(x) - 1` down
 * to 1, pick `j = randbelow(i + 1)` and swap `x[i]` with `x[j]`. The draw
 * used at step `i` is `draws(i)`; each step is taken exactly once, so
 * indexing by step is the same as indexing by call order.
 */
module Shuffle {
  import opened RandomDraws

  /** Exchange the entries at positions `i` and `j`. */
  function Swap(s: seq<nat>, i: nat, j: nat): (r: seq<nat>)
    requires i < |s| && j < |s|
    ensures |r| == |s|
    ensures multiset(r) == multiset(s)
  {
    s[i := s[j]][j := s[i]]
  }

  /** The steps `i = k-1, …, 1` of the shuffle loop; positions from `k` on are already final. */
  function ShuffleBelow(s: seq<nat>, draws: Draws, k: nat): (r: seq<nat>)
    requires k <= |s|
    ensures |r| == |s|
    ensures multiset(r) == multiset(s)
    ensures r[k..] == s[k..]
    decreases k
  {
    if k <= 1 then s
    else
      var i := k - 1;
      ShuffleBelow(Swap(s, i, Below(draws(i), i + 1)), draws, i)
  }

  /** `random.shuffle(x)`, returning the shuffled list. */
  function FisherYates(s: seq<nat>, draws: Draws): (r: seq<nat>)
    ensures |r| == |s|
    ensures multiset(r) == multiset(s)
  {
    ShuffleBelow(s, draws, |s|)
  }

  /** The steps below `k` read only the draws below `k`. */
  lemma {:induction false} ShuffleBelowReadsDrawsBelow(s: seq<nat>, d1: Draws, d2: Draws, k: nat)
    requires k <= |s|
    requires forall x: nat :: x < k ==> d1(x) == d2(x)
    ensures ShuffleBelow(s, d1, k) == ShuffleBelow(s, d2, k)
    decreases k
  {
    if k > 1 {
      var i := k - 1;
      assert d1(i) == d2(i);
      ShuffleBelowReadsDrawsBelow(Swap(s, i, Below(d1(i), i + 1)), d1, d2, i);
    }
  }

  /** `d` with the draw at position `i` replaced by `v`. */
  function Override(d: Draws, i: nat, v: nat): (r: Draws)
    ensures r(i) == v
    ensures forall x: nat :: x != i ==> r(x) == d(x)
  {
    x => if x == i then v else d(x)
  }

  /** With at most one step left, agreeing on the suffix and the prefix elements means equal. */
  lemma ShortPrefixSettled(s: seq<nat>, t: seq<nat>, k: nat)
    requires k <= 1 && k <= |s| == |t|
    requires multiset(s[..k]) == multiset(t[..k])
    requires s[k..] == t[k..]
    ensures s == t
  {
    if k == 1 {
      assert s[..1] == [s[0]] && t[..1] == [t[0]];
      assert s[0] in multiset(t[..1]);
    }
    assert s == s[..k] + s[k..] && t == t[..k] + t[k..];
  }

  /** Removing the same last element from two sequences with equal elements leaves equal elements. */
  lemma DropCommonLast(a: seq<nat>, b: seq<nat>, x: nat)
    requires multiset(a + [x]) == multiset(b + [x])
    ensures multiset(a) == multiset(b)
  {
    assert multiset(a + [x]) == multiset(a) + multiset{x};
    assert multiset(b + [x]) == multiset(b) + multiset{x};
    forall v
      ensures multiset(a)[v] == multiset(b)[v]
    {
      assert multiset(a + [x])[v] == multiset(b + [x])[v];
    }
  }

  /** A swap inside the first `k` positions keeps the prefix's elements and the suffix. */
  lemma SwapWithinPrefix(s: seq<nat>, i: nat, j: nat, k: nat)
    requires i < k && j < k && k <= |s|
    ensures multiset(Swap(s, i, j)[..k]) == multiset(s[..k])
    ensures Swap(s, i, j)[k..] == s[k..]
  {
    var s' := Swap(s, i, j);
    assert s'[k..] == s[k..];
    assert s == s[..k] + s[k..] && s' == s'[..k] + s'[k..];
    assert multiset(s) == multiset(s[..k]) + multiset(s[k..]);
    assert multiset(s') == multiset(s'[..k]) + multiset(s'[k..]);
  }

  /** Position `i` splits the prefix `s[..i+1]` and the suffix `s[i..]` around `s[i]`. */
  lemma SplitAt(s: seq<nat>, i: nat)
    requires i < |s|
    ensures s[..i + 1] == s[..i] + [s[i]]
    ensures s[i..] == [s[i]] + s[i + 1..]
  {
  }

  /** A value among the first `k` elements sits at some position below `k`. */
  lemma FindInPrefix(s: seq<nat>, k: nat, v: nat) returns (j: nat)
    requires k <= |s| && v in multiset(s[..k])
    ensures j < k && s[j] == v
  {
    assert v in s[..k];
    var j0 :| 0 <= j0 < k && s[..k][j0] == v;
    j := j0;
  }

  /**
   * Step `k - 1` can bring the target's entry `t[k-1]` into place: it is found at
   * some position `j < k`, and after the swap the remaining prefix still has the
   * target's elements.
   */
  lemma StepIntoPlace(s: seq<nat>, t: seq<nat>, k: nat) returns (j: nat)
    requires 1 <= k <= |s| == |t|
    requires multiset(s[..k]) == multiset(t[..k])
    requires s[k..] == t[k..]
    ensures j < k
    ensures multiset(Swap(s, k - 1, j)[..k - 1]) == multiset(t[..k - 1])
    ensures Swap(s, k - 1, j)[k - 1..] == t[k - 1..]
  {
    var i := k - 1;
    SplitAt(t, i);
    assert t[i] in multiset(s[..k]);
    j := FindInPrefix(s, k, t[i]);
    var s' := Swap(s, i, j);
    SwapWithinPrefix(s, i, j, k);
    assert s'[i] == t[i];
    SplitAt(s', i);
    DropCommonLast(s'[..i], t[..i], t[i]);
  }

  /**
   * Given a target `t` that already agrees with `s` from position `k` on and has
   * the same elements before it, some draws make the steps below `k` produce `t`.
   */
  lemma {:induction false} ShuffleBelowReaches(s: seq<nat>, t: seq<nat>, k: nat) returns (draws: Draws)
    requires k <= |s| == |t|
    requires multiset(s[..k]) == multiset(t[..k])
    requires s[k..] == t[k..]
    ensures ShuffleBelow(s, draws, k) == t
    decreases k
  {
    if k <= 1 {
      draws := x => 0;
      ShortPrefixSettled(s, t, k);
    } else {
      var i := k - 1;
      var j := StepIntoPlace(s, t, k);
      var s' := Swap(s, i, j);
      var rest := ShuffleBelowReaches(s', t, i);
      draws := Override(rest, i, j);
      ShuffleBelowReadsDrawsBelow(s', draws, rest, i);
      assert Below(draws(i), k) == j;
    }
  }

  /** Every rearrangement of `s` is a possible outcome of the shuffle. */
  lemma FisherYatesReachesEvery(s: seq<nat>, t: seq<nat>)
    requires multiset(s) == multiset(t)
    ensures exists draws: Draws :: FisherYates(s, draws) == t
  {
    assert |s| == |multiset(s)| == |multiset(t)| == |t|;
    assert s[..|s|] == s && t[..|t|] == t;
    var draws := ShuffleBelowReaches(s, t, |s|);
    assert FisherYates(s, draws) == t;
  }
}

=== FILE: stats_logger.dfy ===
/**
 * The in-memory record store of `StatsLogger` (algorithm/stats_logger.py):
 * a map from algorithm name to three append-only lists, the distances, the
 * timestamps and the extra keyword entries of each logged run. Writing the
 * store to its JSON file after each change is not modelled.
 */
module StatsLogger {
  import opened Options

  /** A keyword argument's value. */
  datatype Value = IntValue(i: int) | RealValue(r: real) | TextValue(s: string) | BoolValue(b: bool)

  /** The keyword arguments of one `log` call. */
  type Extra = map<string, Value>

  /** `{"distances": [...], "times": [...], "extra": [...]}` */
  datatype Record = Record(distances: seq<real>, times: seq<real>, extra: seq<Extra>)

  /** `self.data`: the records by algorithm name. */
  type Store = map<string, Record>

  /** The algorithm names the window offers. */
  const KnownAlgorithms: set<string> := {"GA", "ACO", "Hybride"}

  const EmptyRecord: Record := Record([], [], [])

  /** The records `_load_stats` falls back on and `reset` installs. */
  function DefaultStore(): (s: Store)
    ensures s.Keys == KnownAlgorithms
    ensures forall name :: name in s ==> s[name] == EmptyRecord
  {
    map["GA" := EmptyRecord, "ACO" := EmptyRecord, "Hybride" := EmptyRecord]
  }

  /**
   * `_load_stats`: the store read from the file when there is one and it
   * loads, the default records otherwise.
   */
  function LoadStats(loaded: Option<Store>): (s: Store)
    ensures loaded.Some? ==> s == loaded.value
    ensures loaded.None? ==> s.Keys == KnownAlgorithms
    ensures loaded.None? ==> forall name :: name in s ==> s[name] == EmptyRecord
  {
    match loaded
    case Some(stored) => stored
    case None => DefaultStore()
  }

  /** `reset`: every record back to the defaults, whatever was logged. */
  function Reset(s: Store): (s': Store)
    ensures s'.Keys == KnownAlgorithms
    ensures forall name :: name in s' ==> s'[name] == EmptyRecord
  {
    DefaultStore()
  }

  /** A list with `x` appended when it is present. */
  function AppendIfPresent<T>(xs: seq<T>, x: Option<T>): (r: seq<T>)
    ensures x.None? ==> r == xs
    ensures x.Some? ==> r == xs + [x.value]
  {
    match x
    case Some(v) => xs + [v]
    case None => xs
  }

  /** The record stored under `name`, an empty one when there is none. */
  function RecordOf(s: Store, name: string): Record {
    if name in s then s[name] else EmptyRecord
  }

  /** The record after one `log` call's appends. */
  function Extend(r: Record, distance: Option<real>, timestamp: Option<real>, kwargs: Extra): Record {
    Record(
      AppendIfPresent(r.distances, distance),
      AppendIfPresent(r.times, timestamp),
      if |kwargs| > 0 then r.extra + [kwargs] else r.extra)
  }

  /**
   * `log`: an unknown name first gets an empty record; then the distance and
   * the timestamp are appended when given, and the keyword arguments as one
   * entry when there are any.
   */
  function Log(s: Store, name: string, distance: Option<real>, timestamp: Option<real>, kwargs: Extra): (s': Store)
    ensures s'.Keys == s.Keys + {name}
    ensures forall other :: other in s && other != name ==> s'[other] == s[other]
    ensures var before := RecordOf(s, name);
            && s'[name].distances == AppendIfPresent(before.distances, distance)
            && s'[name].times == AppendIfPresent(before.times, timestamp)
            && s'[name].extra == (if |kwargs| > 0 then before.extra + [kwargs] else before.extra)
  {
    s[name := Extend(RecordOf(s, name), distance, timestamp, kwargs)]
  }

  /** `get`: the record of a known name; `None` stands for the empty dict returned otherwise. */
  function Get(s: Store, name: string): (r: Option<Record>)
    ensures name in s ==> r == Some(s[name])
    ensures name !in s ==> r == None
  {
    if name in s then Some(s[name]) else None
  }

  /** `get_all`: the whole store. */
  function GetAll(s: Store): (r: Store)
    ensures r.Keys == s.Keys
    ensures forall name :: name in s ==> r[name] == s[name]
  {
    s
  }

  /** `r'` extends `r`: each list keeps its entries and gains at most one more. */
  predicate GrowsByAtMostOne(r: Record, r': Record) {
    && |r.distances| <= |r'.distances| <= |r.distances| + 1 && r.distances <= r'.distances
    && |r.times| <= |r'.times| <= |r.times| + 1 && r.times <= r'.times
    && |r.extra| <= |r'.extra| <= |r.extra| + 1 && r.extra <= r'.extra
  }

  /**
   * One `log` call grows its target's lists by at most one entry each, each
   * exactly when the corresponding argument is given, and keeps what was
   * already there; a new name starts from an empty record.
   */
  lemma LogAppendsOnly(s: Store, name: string, distance: Option<real>, timestamp: Option<real>, kwargs: Extra)
    ensures var s' := Log(s, name, distance, timestamp, kwargs);
            var before := RecordOf(s, name);
            && GrowsByAtMostOne(before, s'[name])
            && (|s'[name].distances| == |before.distances| + 1 <==> distance.Some?)
            && (|s'[name].times| == |before.times| + 1 <==> timestamp.Some?)
            && (|s'[name].extra| == |before.extra| + 1 <==> |kwargs| > 0)
  {
  }

  /** Reading back after a `log` sees the new entries under that name and the old record under every other. */
  lemma GetAfterLog(s: Store, name: string, other: string, distance: Option<real>, timestamp: Option<real>, kwargs: Extra)
    ensures var s' := Log(s, name, distance, timestamp, kwargs);
            && Get(s', name).Some?
            && (other != name ==> Get(s', other) == Get(s, other))
  {
  }

  /** Logging under two different names gives the same store in either order. */
  lemma LogCommutes(s: Store, a: string, b: string,
                    da: Option<real>, ta: Option<real>, ka: Extra,
                    db: Option<real>, tb: Option<real>, kb: Extra)
    requires a != b
    ensures Log(Log(s, a, da, ta, ka), b, db, tb, kb) == Log(Log(s, b, db, tb, kb), a, da, ta, ka)
  {
    var ra := Extend(RecordOf(s, a), da, ta, ka);
    var rb := Extend(RecordOf(s, b), db, tb, kb);
    assert RecordOf(s[a := ra], b) == RecordOf(s, b);
    assert RecordOf(s[b := rb], a) == RecordOf(s, a);
    assert s[a := ra][b := rb] == s[b := rb][a := ra];
  }

  /** One `log` call, as recorded for replay. */
  datatype LogCall = LogCall(name: string, distance: Option<real>, timestamp: Option<real>, kwargs: Extra)

  /** The calls in order, applied to the store. */
  function LogAll(s: Store, calls: seq<LogCall>): Store
    decreases |calls|
  {
    if |calls| == 0 then s
    else
      var c := calls[|calls| - 1];
      Log(LogAll(s, calls[..|calls| - 1]), c.name, c.distance, c.timestamp, c.kwargs)
  }

  /** The distances logged under `name`, in call order. */
  function DistancesFor(calls: seq<LogCall>, name: string): seq<real>
    decreases |calls|
  {
    if |calls| == 0 then []
    else
      var c := calls[|calls| - 1];
      DistancesFor(calls[..|calls| - 1], name) + DistanceOf(c, name)
  }

  /** The names of a series of calls. */
  function CalledNames(calls: seq<LogCall>): set<string> {
    set i | 0 <= i < |calls| :: calls[i].name
  }

  /** The last call adds its name to those before it. */
  lemma CalledNamesLast(calls: seq<LogCall>)
    requires |calls| > 0
    ensures CalledNames(calls) == CalledNames(calls[..|calls| - 1]) + {calls[|calls| - 1].name}
  {
    var init := calls[..|calls| - 1];
    forall name | name in CalledNames(calls)
      ensures name in CalledNames(init) + {calls[|calls| - 1].name}
    {
      var i :| 0 <= i < |calls| && calls[i].name == name;
      if i < |init| {
        assert init[i] == calls[i];
      }
    }
    forall name | name in CalledNames(init)
      ensures name in CalledNames(calls)
    {
      var i :| 0 <= i < |init| && init[i].name == name;
      assert calls[i] == init[i];
    }
  }

  /** Replaying a series of `log` calls adds exactly the logged names to the store. */
  lemma {:induction false} LogAllKeys(s: Store, calls: seq<LogCall>)
    ensures LogAll(s, calls).Keys == s.Keys + CalledNames(calls)
    decreases |calls|
  {
    if |calls| > 0 {
      LogAllKeys(s, calls[..|calls| - 1]);
      CalledNamesLast(calls);
    }
  }

  /** The distance a call contributes to `name`'s list. */
  function DistanceOf(c: LogCall, name: string): seq<real> {
    if c.name == name && c.distance.Some? then [c.distance.value] else []
  }

  /** One `log` call appends its distance, if any, to its own name's list only. */
  lemma LogDistancesStep(s: Store, c: LogCall, name: string)
    ensures RecordOf(Log(s, c.name, c.distance, c.timestamp, c.kwargs), name).distances
            == RecordOf(s, name).distances + DistanceOf(c, name)
  {
    if c.name != name {
      assert RecordOf(s, name).distances + [] == RecordOf(s, name).distances;
    }
  }

  /**
   * Replaying a series of `log` calls: the distances list of a name is its
   * previous list followed by the distances given to that name's calls, in
   * call order.
   */
  lemma {:induction false} LogAllDistances(s: Store, calls: seq<LogCall>, name: string)
    ensures RecordOf(LogAll(s, calls), name).distances == RecordOf(s, name).distances + DistancesFor(calls, name)
    decreases |calls|
  {
    if |calls| > 0 {
      var init := calls[..|calls| - 1];
      var c := calls[|calls| - 1];
      LogAllDistances(s, init, name);
      LogDistancesStep(LogAll(s, init), c, name);
      assert DistancesFor(calls, name) == DistancesFor(init, name) + DistanceOf(c, name);
      AppendAssociates(RecordOf(s, name).distances, DistancesFor(init, name), DistanceOf(c, name));
    }
  }

  lemma AppendAssociates(a: seq<real>, b: seq<real>, c: seq<real>)
    ensures a + b + c == a + (b + c)
  {
  }

  /** A name that no call mentions keeps its record. */
  lemma {:induction false} LogAllLeavesOthers(s: Store, calls: seq<LogCall>, name: string)
    requires forall i :: 0 <= i < |calls| ==> calls[i].name != name
    ensures RecordOf(LogAll(s, calls), name) == RecordOf(s, name)
    ensures name in LogAll(s, calls) <==> name in s
    decreases |calls|
  {
    if |calls| > 0 {
      LogAllLeavesOthers(s, calls[..|calls| - 1], name);
      assert calls[|calls| - 1].name != name;
    }
  }

  /** What `get` reads from a store holding only the default records: an empty record for the three known names, nothing otherwise. */
  predicate ReadsAsDefault(s: Store, name: string) {
    Get(s, name) == if name in KnownAlgorithms then Some(EmptyRecord) else None
  }

  /** After `reset`, whatever was logged before, every name reads as in the default store. */
  lemma ResetForgetsLogs(s: Store, calls: seq<LogCall>, name: string)
    ensures ReadsAsDefault(Reset(LogAll(s, calls)), name)
  {
  }

  /** Without a stats file, every name reads as in the default store. */
  lemma DefaultLoadReadsEmpty(name: string)
    ensures ReadsAsDefault(LoadStats(None), name)
  {
  }
}

=== FILE: tour.dfy ===
/**
 * Tour length as `TSPGUI.compute_distance` (algorithm/gui.py) computes it:
 * the sum of the distances between consecutive cities of the visiting order,
 * plus the edge closing the loop from the last city back to the first.
 *
 * The Euclidean distance `math.dist` between the cities at two indices is an
 * abstract function `Dist` on index pairs; no floating point is involved.
 */
module Tour {

  /** A city: integer canvas coordinates. */
  datatype City = City(x: int, y: int)

  /** The distance between the cities at two indices. */
  type Dist = (nat, nat) -> real

  /** The distance between two cities (it stands for `math.dist`). */
  type Metric = (City, City) -> real

  /** A directed edge between the cities at two indices. */
  datatype Edge = Edge(from: nat, to: nat)

  ghost predicate NonNegative(d: Dist) {
    forall i: nat, j: nat :: d(i, j) >= 0.0
  }

  ghost predicate Symmetric(d: Dist) {
    forall i: nat, j: nat :: d(i, j) == d(j, i)
  }

  ghost predicate ZeroOnSelf(d: Dist) {
    forall i: nat :: d(i, i) == 0.0
  }

  ghost predicate NonNegativeMetric(m: Metric) {
    forall a: City, b: City :: m(a, b) >= 0.0
  }

  /**
   * The index distance induced by a metric on the current cities. Tours only
   * hold indices of `cities`; outside them the value is never consulted.
   */
  function CityDist(cities: seq<City>, m: Metric): (d: Dist)
    ensures forall i: nat, j: nat :: i < |cities| && j < |cities| ==> d(i, j) == m(cities[i], cities[j])
    ensures NonNegativeMetric(m) ==> NonNegative(d)
  {
    (i: nat, j: nat) => if i < |cities| && j < |cities| then m(cities[i], cities[j]) else 0.0
  }

  /** Edge `i` of the closed tour through `p`: into the next city, or back to the first from the last. */
  function CycleEdge(p: seq<nat>, i: nat): Edge
    requires i < |p|
  {
    Edge(p[i], p[if i + 1 < |p| then i + 1 else 0])
  }

  /** The edges of the closed tour through `p`, in visiting order, closing edge last. */
  function CycleEdges(p: seq<nat>): (es: seq<Edge>)
    ensures |es| == |p|
  {
    seq(|p|, i requires 0 <= i < |p| => CycleEdge(p, i))
  }

  /** The length of each edge. */
  function Lengths(d: Dist, es: seq<Edge>): (ls: seq<real>)
    ensures |ls| == |es|
    ensures forall i :: 0 <= i < |es| ==> ls[i] == d(es[i].from, es[i].to)
  {
    seq(|es|, i requires 0 <= i < |es| => d(es[i].from, es[i].to))
  }

  /** Left-to-right sum, as a running `+=` accumulates it. */
  function Sum(xs: seq<real>): real {
    if |xs| == 0 then 0.0 else Sum(xs[..|xs| - 1]) + xs[|xs| - 1]
  }

  /** The length of the closed tour through `p`; no tour is formed by fewer than two cities. */
  function TourLength(d: Dist, p: seq<nat>): real {
    if |p| < 2 then 0.0 else Sum(Lengths(d, CycleEdges(p)))
  }

  /** `compute_distance`: the consecutive edges in a loop, then the closing edge. */
  method ComputeDistance(d: Dist, path: seq<nat>) returns (dist: real)
    ensures |path| < 2 ==> dist == 0.0
    ensures |path| >= 2 ==>
      dist == Sum(seq(|path| - 1, i requires 0 <= i < |path| - 1 => d(path[i], path[i + 1])))
              + d(path[|path| - 1], path[0])
    ensures dist == TourLength(d, path)
  {
    if |path| < 2 {
      return 0.0;
    }
    ghost var legs := Lengths(d, CycleEdges(path));
    var n := |path|;
    dist := 0.0;
    var i := 0;
    while i < n - 1
      invariant 0 <= i <= n - 1
      invariant dist == Sum(legs[..i])
    {
      assert legs[..i + 1][..i] == legs[..i];
      dist := dist + d(path[i], path[i + 1]);
      i := i + 1;
    }
    assert legs[..n - 1] == seq(n - 1, i requires 0 <= i < n - 1 => d(path[i], path[i + 1]));
    assert legs[..n][..n - 1] == legs[..n - 1];
    dist := dist + d(path[n - 1], path[0]);
    assert legs[..n] == legs;
  }

  lemma {:induction false} SumAppend(a: seq<real>, b: seq<real>)
    ensures Sum(a + b) == Sum(a) + Sum(b)
    decreases |b|
  {
    if |b| == 0 {
      assert a + b == a;
    } else {
      assert (a + b)[..|a + b| - 1] == a + b[..|b| - 1];
      SumAppend(a, b[..|b| - 1]);
    }
  }

  /** Appending one value adds it to the sum. */
  lemma SumSnoc(xs: seq<real>, x: real)
    ensures Sum(xs + [x]) == Sum(xs) + x
  {
    assert (xs + [x])[..|xs|] == xs;
  }

  lemma {:induction false} SumNonNegative(xs: seq<real>)
    requires forall i :: 0 <= i < |xs| ==> xs[i] >= 0.0
    ensures Sum(xs) >= 0.0
    decreases |xs|
  {
    if |xs| > 0 {
      SumNonNegative(xs[..|xs| - 1]);
    }
  }

  function Reverse<T>(xs: seq<T>): (r: seq<T>)
    ensures |r| == |xs|
    ensures forall i :: 0 <= i < |xs| ==> r[i] == xs[|xs| - 1 - i]
  {
    seq(|xs|, i requires 0 <= i < |xs| => xs[|xs| - 1 - i])
  }

  lemma {:induction false} SumReverse(xs: seq<real>)
    ensures Sum(Reverse(xs)) == Sum(xs)
    decreases |xs|
  {
    if |xs| > 0 {
      var init := xs[..|xs| - 1];
      assert Reverse(xs) == [xs[|xs| - 1]] + Reverse(init);
      SumAppend([xs[|xs| - 1]], Reverse(init));
      SumReverse(init);
      assert Sum([xs[|xs| - 1]]) == Sum([]) + xs[|xs| - 1];
    }
  }

  /** With non-negative distances every tour length is non-negative. */
  lemma TourLengthNonNegative(d: Dist, p: seq<nat>)
    requires NonNegative(d)
    ensures TourLength(d, p) >= 0.0
  {
    if |p| >= 2 {
      SumNonNegative(Lengths(d, CycleEdges(p)));
    }
  }

  /** The visiting order started from position `k` and wrapping around. */
  function Rotate(p: seq<nat>, k: nat): (r: seq<nat>)
    requires k <= |p|
    ensures |r| == |p|
    ensures multiset(r) == multiset(p)
  {
    assert p == p[..k] + p[k..];
    p[k..] + p[..k]
  }

  /** Rotating the visiting order rotates its edge list by the same amount. */
  lemma CycleEdgesRotate(p: seq<nat>, k: nat)
    requires k <= |p|
    ensures CycleEdges(Rotate(p, k)) == CycleEdges(p)[k..] + CycleEdges(p)[..k]
  {
    var n := |p|;
    var q := Rotate(p, k);
    var es := CycleEdges(p);
    forall i | 0 <= i < n
      ensures CycleEdges(q)[i] == (es[k..] + es[..k])[i]
    {
      if i < n - k {
        assert q[i] == p[i + k];
      } else {
        assert q[i] == p[i + k - n];
      }
      if i + 1 < n {
        if i + 1 < n - k {
          assert q[i + 1] == p[i + 1 + k];
        } else {
          assert q[i + 1] == p[i + 1 + k - n];
        }
      } else if k < n {
        assert q[0] == p[k];
      } else {
        assert q[0] == p[0];
      }
    }
  }

  lemma LengthsAppend(d: Dist, a: seq<Edge>, b: seq<Edge>)
    ensures Lengths(d, a + b) == Lengths(d, a) + Lengths(d, b)
  {
  }

  /** Swapping the two halves of a sequence keeps its sum. */
  lemma SumSwapHalves(a: seq<real>, b: seq<real>)
    ensures Sum(a + b) == Sum(b + a)
  {
    SumAppend(a, b);
    SumAppend(b, a);
  }

  /** The closing edge makes the length independent of the starting city. */
  lemma TourLengthRotationInvariant(d: Dist, p: seq<nat>, k: nat)
    requires k <= |p|
    ensures TourLength(d, Rotate(p, k)) == TourLength(d, p)
  {
    if |p| >= 2 {
      var es := CycleEdges(p);
      var q := Rotate(p, k);
      CycleEdgesRotate(p, k);
      LengthsAppend(d, es[k..], es[..k]);
      LengthsAppend(d, es[..k], es[k..]);
      assert es[..k] + es[k..] == es;
      assert Lengths(d, CycleEdges(q)) == Lengths(d, es[k..]) + Lengths(d, es[..k]);
      assert Lengths(d, es) == Lengths(d, es[..k]) + Lengths(d, es[k..]);
      SumSwapHalves(Lengths(d, es[k..]), Lengths(d, es[..k]));
    }
  }

  /**
   * With a symmetric distance, the legs of the reversed tour are the open legs
   * of the tour in reverse order, followed by the closing leg.
   */
  lemma ReversedLegs(d: Dist, p: seq<nat>)
    requires Symmetric(d) && |p| >= 2
    ensures var ls := Lengths(d, CycleEdges(p));
            Lengths(d, CycleEdges(Reverse(p))) == Reverse(ls[..|p| - 1]) + [ls[|p| - 1]]
  {
    var n := |p|;
    var ls := Lengths(d, CycleEdges(p));
    var rs := Lengths(d, CycleEdges(Reverse(p)));
    var open := ls[..n - 1];
    forall i | 0 <= i < n
      ensures rs[i] == (Reverse(open) + [ls[n - 1]])[i]
    {
      if i < n - 1 {
        assert rs[i] == d(p[n - 1 - i], p[n - 2 - i]);
        assert open[n - 2 - i] == d(p[n - 2 - i], p[n - 1 - i]);
      } else {
        assert rs[i] == d(p[0], p[n - 1]);
      }
    }
  }

  /** With a symmetric distance, traversing the tour backwards gives the same length. */
  lemma TourLengthReversalInvariant(d: Dist, p: seq<nat>)
    requires Symmetric(d)
    ensures TourLength(d, Reverse(p)) == TourLength(d, p)
  {
    var n := |p|;
    if n >= 2 {
      var ls := Lengths(d, CycleEdges(p));
      ReversedLegs(d, p);
      SumSnoc(Reverse(ls[..n - 1]), ls[n - 1]);
      SumReverse(ls[..n - 1]);
    }
  }

  /** When a city is at distance zero from itself, the tour length is the sum over all cycle edges, whatever the length of `p`. */
  lemma TourLengthIsCycleSum(d: Dist, p: seq<nat>)
    requires ZeroOnSelf(d)
    ensures TourLength(d, p) == Sum(Lengths(d, CycleEdges(p)))
  {
    if |p| == 1 {
      assert Lengths(d, CycleEdges(p)) == [d(p[0], p[0])];
      assert Sum([d(p[0], p[0])]) == Sum([]) + d(p[0], p[0]);
    }
  }
}
